=== FILE: README.md ===
# Section import, modelled in Dafny

Wagon's `import` command copies one *section* of a LocomotiveCMS site from a
source site tree into a target site tree. A section is three files: a Liquid
template under `app/views/sections`, a script under
`app/assets/javascripts/sections` and a stylesheet under
`app/assets/stylesheets/sections`. For each kind, in that order, the command
globs the kind's directory in the source site. It insists on exactly one match
and copies that file to the same directory of the target site under the same
base name. If a glob finds no file, or more than one, the command raises
`ImportException` with that kind's message ("Section template not found",
"Section js not found", "Section css not found"). Copies made by earlier
stages stay in place. Once all three copies are done, the command patches
three files of the target site:

- it appends an `export { default as C } from './<name>';` line to the script index `sections/index.js`;
- it inserts a `sectionsManager.registerSection('<name>', Sections.C);` line into `app.js`;
- it inserts an `@import 'sections/<name>';` line into `app.scss`.

Both insertions go right after the marker line
`// Register sections here. DO NOT REMOVE OR UPDATE THIS LINE`. The command
then returns `true`. The command also has a small filter, `each_resource`,
over the list of resource names `RESOURCES`.

The model is functional:

- the file tree is a map from paths to contents, and a path is its sequence of components;
- a glob is a set of files directly inside a directory whose base name starts with a given prefix;
- an import is a pure function from a tree to an `Outcome`: either `Returned(tree, true)` or `Raised(tree, exception)`. A raised outcome keeps the tree as it was when the exception happened. Missing aggregator files are handled by fixed choices, listed under "## Left out".

Modules:

- `Common`: `Option`, `Result`.
- `Paths`: paths and the site layout (`sections_path`, `sections_js_path`, `sections_css_path`, and the three aggregator files).
- `Files`: the file tree, globbing, the exactly-one rule, and Thor's `copy_file`, `append_to_file` and `insert_into_file`.
- `TextPatch`: append, insert-after-first-marker, and splitting lines apart again.
- `Resources`: `RESOURCES` and `each_resource`.
- `ImportCommand`: the three copy stages, the generated lines, the patches, `_import`, and the properties of the whole import.

Facts about the command that the model keeps:

- The command raises one `ImportException` per kind, with one message, for both zero and several matches. There are no separate "not found" and "ambiguous" errors.
- The command's own text has no duplicate check and no missing-marker error. Both edits are handed to Thor, and the model states only the positional edit (see "## Left out").

Three behaviours are parameters or fixed choices rather than modelled:

- `String#classify` is a parameter `classify: string -> string`.
- The tree is an explicit argument.
- `print_result_message` is modelled by its return value only.

## Model

| member | source | states |
|---|---|---|
| `Files.SelectOne` | lib/locomotive/wagon/commands/import_command.rb:38-44 | A file is selected exactly when the glob found one match, and then it is that match; zero or several matches select nothing |
| `Files.NoPickAmongSeveral` | lib/locomotive/wagon/commands/import_command.rb:39-43 | Given two different matches, nothing is selected: the code never takes the first of several |
| `Files.CopyFile` | lib/locomotive/wagon/commands/import_command.rb:41 | `copy_file` gives the destination the source's contents, adds only that path, and leaves every other file as it was |
| `Files.CopyOutsideKeepsGlob` | lib/locomotive/wagon/commands/import_command.rb:38-57 | A copy into a path outside a directory changes neither what a glob over that directory finds nor the contents of what it finds |
| `Files.AppendToFile` | lib/locomotive/wagon/commands/import_command.rb:68-70 | `append_to_file` as an unconditional append: the old contents stay a prefix, exactly the text follows them, and no other file changes |
| `Files.InsertIntoFile` | lib/locomotive/wagon/commands/import_command.rb:72-78 | `insert_into_file` changes only the named file, and only by the insert-after-marker edit; it adds no file |
| `TextPatch.FindFrom` | lib/locomotive/wagon/commands/import_command.rb:72 | The search for the `after:` marker returns an index where the marker occurs with no earlier occurrence from the start point, or reports that it occurs nowhere after it |
| `TextPatch.Find` | lib/locomotive/wagon/commands/import_command.rb:72 | Returns the first occurrence of the marker, and returns nothing exactly when the marker occurs nowhere |
| `TextPatch.Append` | lib/locomotive/wagon/commands/import_command.rb:68-70 | The old text is a prefix of the result, and what follows it is exactly the appended text |
| `TextPatch.InsertAfter` | lib/locomotive/wagon/commands/import_command.rb:72-78 | Without a marker the text is unchanged; otherwise the inserted text sits right after the first marker, with the text before and after that point unchanged |
| `TextPatch.InsertAfterAnchor` | lib/locomotive/wagon/commands/import_command.rb:72-78 | On `pre + marker + post` whose first marker follows `pre`, the result is `pre + marker + text + post` |
| `ImportCommand.CopyStage` | lib/locomotive/wagon/commands/import_command.rb:38-61 | A stage succeeds exactly when its glob finds one file. It then copies that file to the mirrored path, where the path relative to the target root equals the source's path relative to the source root and the base name is kept. On failure it raises the kind's own message |
| `ImportCommand.AggregatorsDistinct` | lib/locomotive/wagon/commands/import_command.rb:66-76 | `index.js`, `app.js` and `app.scss` under one root are three different files |
| `ImportCommand.CopyMissesLaterSources` | lib/locomotive/wagon/commands/import_command.rb:112-122 | For any roots, a file copied into a target sections directory is never inside the source sections directory that a later stage globs |
| `ImportCommand.LaterCandidatesUnchanged` | lib/locomotive/wagon/commands/import_command.rb:38-61 | A stage's copy changes neither what any later stage's glob finds nor the contents of those files |
| `ImportCommand.PatchAggregators` | lib/locomotive/wagon/commands/import_command.rb:63-78 | `index.js` ends with the export line after its old contents. `app.js` and `app.scss` receive their lines after the marker. No other file changes, and the only file added is `index.js` |
| `ImportCommand.ImportReturnsIff` | lib/locomotive/wagon/commands/import_command.rb:28-80 | The import returns exactly when each of the three globs, run on the tree as it was before the import, finds exactly one file. When it returns, the value is `true` |
| `ImportCommand.TemplateFailureStops` | lib/locomotive/wagon/commands/import_command.rb:38-44 | A failing template glob raises "Section template not found" and leaves the tree untouched: no copy, no patch |
| `ImportCommand.ScriptFailureStops` | lib/locomotive/wagon/commands/import_command.rb:46-52 | A failing script glob raises "Section js not found". The tree then holds the template copy and nothing else: no stylesheet copy, no patch, no rollback |
| `ImportCommand.StylesheetFailureStops` | lib/locomotive/wagon/commands/import_command.rb:54-61 | A failing stylesheet glob raises "Section css not found". The tree then holds the template and script copies and nothing else: no patch, no rollback |
| `ImportCommand.Matched` | lib/locomotive/wagon/commands/import_command.rb:38-40 | The single match of a stage is a file directly inside that stage's source sections directory |
| `ImportCommand.ImportCopiesThenPatches` | lib/locomotive/wagon/commands/import_command.rb:34-80 | When every glob finds one file, the import is the three copies from the original tree followed by the three patches, and it returns `true` |
| `ImportCommand.ImportSuccess` | lib/locomotive/wagon/commands/import_command.rb:34-80 | After a successful import: each copied file holds its source's contents at its mirrored path (the script copy is the exception when it is `index.js`); `index.js` is its earlier contents plus the export line; the registries hold the inserted lines; every other file is unchanged |
| `ImportCommand.PatchedCopies` | lib/locomotive/wagon/commands/import_command.rb:41-78 | For any three copies into the target sections directories followed by the patches: the template and stylesheet copies survive; the script copy survives unless it is `index.js`; all other files keep their contents |
| `ImportCommand.ImportPatchesMissCopies` | lib/locomotive/wagon/commands/import_command.rb:41-78 | The three copy destinations are pairwise different. None is a registry, and only a script copy can be `index.js` |
| `ImportCommand.RegisterLineFollowsMarker` | lib/locomotive/wagon/commands/import_command.rb:72-74 | After an import, `app.js` is `pre + marker + registerSection line + post`, where `pre + marker + post` was its text before |
| `ImportCommand.ImportLineFollowsMarker` | lib/locomotive/wagon/commands/import_command.rb:76-78 | After an import, `app.scss` is `pre + marker + @import line + post`, where `pre + marker + post` was its text before |
| `ImportCommand.StylesheetPrefixesExclusive` | lib/locomotive/wagon/commands/import_command.rb:54 | No base name starts with two of `<name>.css`, `<name>.sass` and `<name>.scss`, so the brace glob lists each file once |
| `ImportCommand.ParseIndexLine` | lib/locomotive/wagon/commands/import_command.rb:68-70 | A line that parses as an index line is exactly the export line for the class and section it yields |
| `ImportCommand.IndexLineRoundTrip` | lib/locomotive/wagon/commands/import_command.rb:68-70 | The export line gives back its class name and section name |
| `ImportCommand.ParseRegisterLine` | lib/locomotive/wagon/commands/import_command.rb:72-74 | A line that parses as a registration line is exactly the `registerSection` line for the name and class it yields |
| `ImportCommand.RegisterLineRoundTrip` | lib/locomotive/wagon/commands/import_command.rb:72-74 | The registration line gives back its section name and class name |
| `ImportCommand.ParseImportLine` | lib/locomotive/wagon/commands/import_command.rb:76-78 | A line that parses as a style import line is exactly the `@import` line for the name it yields |
| `ImportCommand.ImportLineRoundTrip` | lib/locomotive/wagon/commands/import_command.rb:76-78 | The `@import` line gives back its section name for every name |
| `ImportCommand.Import` | lib/locomotive/wagon/commands/import_command.rb:34-81 | `_import` itself: it returns only `true` and raises only one of the three stage exceptions. Its full behaviour is stated by `ImportReturnsIff`, the three `…FailureStops` lemmas, `ImportCopiesThenPatches` and `ImportSuccess` |
| `ImportCommand.PrintResultMessage` | lib/locomotive/wagon/commands/import_command.rb:97-100 | The value `true` the import returns; stated by `ImportReturnsIff` and `ImportCopiesThenPatches` |
| `ImportCommand.Prefixes` | lib/locomotive/wagon/commands/import_command.rb:38-54 | The glob of each kind as base-name prefixes; every prefix is the section name, a dot and an extension. `StylesheetPrefixesExclusive` shows the three stylesheet prefixes never overlap |
| `ImportCommand.NotFound` | lib/locomotive/wagon/commands/import_command.rb:43-60 | The three exception messages; `NotFoundTellsKind` shows each names its own stage |
| `ImportCommand.NotFoundTellsKind` | lib/locomotive/wagon/commands/import_command.rb:43-60 | Different stages raise different messages |
| `ImportCommand.Destination` | lib/locomotive/wagon/commands/import_command.rb:40-57 | The copy target is directly inside the kind's target sections directory and keeps the source's base name; `CopyStage` states the mirroring |
| `ImportCommand.IndexLine` | lib/locomotive/wagon/commands/import_command.rb:68-70 | The export line is one complete line for names without a newline; `IndexLineRoundTrip` and `ParseIndexLine` show it carries exactly its class and section name |
| `ImportCommand.RegisterLine` | lib/locomotive/wagon/commands/import_command.rb:72-74 | The registration line is one complete line for names without a newline; `RegisterLineRoundTrip` and `ParseRegisterLine` show it carries exactly its section and class name |
| `ImportCommand.ImportLine` | lib/locomotive/wagon/commands/import_command.rb:76-78 | The `@import` line is one complete line for names without a newline; `ImportLineRoundTrip` and `ParseImportLine` show it carries exactly its section name |
| `Files.Glob` | lib/locomotive/wagon/commands/import_command.rb:38-54 | `Dir.glob` over one directory: exactly the existing files directly inside it whose base name has one of the prefixes; `SelectOne` and `CopyOutsideKeepsGlob` state how the import uses it |
| `Paths.SectionsPath` | lib/locomotive/wagon/commands/import_command.rb:112-114 | The templates directory under a root; `CopyMissesLaterSources` and `CopyStage` state the layout facts the import relies on |
| `Paths.SectionsJsPath` | lib/locomotive/wagon/commands/import_command.rb:116-118 | The scripts directory under a root; see `CopyMissesLaterSources` and `AggregatorsDistinct` |
| `Paths.SectionsCssPath` | lib/locomotive/wagon/commands/import_command.rb:120-122 | The stylesheets directory under a root; see `CopyMissesLaterSources` |
| `Paths.IndexPath` | lib/locomotive/wagon/commands/import_command.rb:66 | The script index `index.js` inside the scripts sections directory of a root; `AggregatorsDistinct` and `ImportPatchesMissCopies` state how it relates to the other files |
| `Paths.AppJsPath` | lib/locomotive/wagon/commands/import_command.rb:72 | The script registry `app/assets/javascripts/app.js` under a root; see `AggregatorsDistinct` and `RegisterLineFollowsMarker` |
| `Paths.AppScssPath` | lib/locomotive/wagon/commands/import_command.rb:76 | The style registry `app/assets/stylesheets/app.scss` under a root; see `AggregatorsDistinct` and `ImportLineFollowsMarker` |
| `ImportCommand.Marker` | lib/locomotive/wagon/commands/import_command.rb:72-76 | The `after:` marker of both insertions, with its trailing newline; `RegisterLineFollowsMarker` and `ImportLineFollowsMarker` place the new lines right after it |
| `ImportCommand.Candidates` | lib/locomotive/wagon/commands/import_command.rb:38-54 | The three `Dir.glob` calls: a kind's glob over its sections directory under the source root; `CopyStage` and `ImportReturnsIff` state the exactly-one rule on it |
| `Resources.All` | lib/locomotive/wagon/commands/import_command.rb:16 | `RESOURCES`, the nine names in declared order; `EachResource` yields them all for a blank option |
| `Resources.Blank` | lib/locomotive/wagon/commands/import_command.rb:85 | `.blank?` on the `:resources` option: absent or an empty list; `EachResource` and `KeepAll` state what a blank option means |
| `Resources.Wanted` | lib/locomotive/wagon/commands/import_command.rb:85 | The `next if` test of `each_resource`; `Keep` and `EachResource` state what passing it means |
| `Resources.Keep` | lib/locomotive/wagon/commands/import_command.rb:83-91 | Keeps exactly the names that pass the `:resources` filter, in their original order |
| `Resources.EachResource` | lib/locomotive/wagon/commands/import_command.rb:83-91 | A blank option yields all of `RESOURCES`. Otherwise it yields exactly the resources named in the option. Either way the result is in declared order |
| `Resources.KeepAll` | lib/locomotive/wagon/commands/import_command.rb:85 | A blank `:resources` option filters nothing out |
| `Resources.KeepIsTheOnlyOrderedSelection` | lib/locomotive/wagon/commands/import_command.rb:84-85 | Over distinct names, any order-preserving selection of the names that pass the filter is the filter's result |
| `Resources.EachResourceIsDetermined` | lib/locomotive/wagon/commands/import_command.rb:83-91 | `each_resource` is the only sequence that is in `RESOURCES` order and holds exactly the wanted names |

## Left out

- The real filesystem and glob engine are not modelled. The tree holds regular files only, and paths are compared as component sequences. Glob metacharacters inside the section name, hidden files, symbolic links, `..` and other path aliasing, and directories whose names match a glob are not modelled.
- Files.CopyFile: overwrites an existing destination. Thor's `copy_file` may instead ask about a conflicting destination, or skip or force it. That behaviour is not visible in the command and is not modelled.
- TextPatch.InsertAfter: inserts after the first marker only. Thor's `insert_into_file` may also skip text that is already present and may insert after every occurrence of the marker. Neither is visible in the command, so the model claims no idempotence and states only the positional insertion.
- Files.InsertIntoFile: leaves a missing registry file missing, and leaves a file without the marker unchanged. What Thor does in those cases, such as raising, is not part of this model.
- Files.AppendToFile: always appends, and creates a missing `index.js`. Thor builds `append_to_file` on `insert_into_file`, so it may skip text already present anywhere in the file (re-importing a section whose export line `index.js` already holds would then leave it unchanged, where the model adds a second copy), and it may raise on a missing file. Neither is visible in the command, so the model claims no idempotence.
- `String#classify` (ActiveSupport) is a parameter `classify` with no assumed properties.
- `print_result_message`'s message to the shell is left out. Only its return value `true` is modelled, by `ImportCommand.PrintResultMessage`.
- `each_resource`'s lookup of a `Pull…Command` class (`constantize`) and its `yield` are left out. `Resources.EachResource` returns the names it would look up.
- Resources.Blank: treats only a missing option or an empty list as blank. Rails' `blank?` on other value types, such as a whitespace string, is not modelled.
- The `export_string` local is never used.
- `connection_information` refers to `env` and `path`, which the command does not have.
- The included API, deploy-file, instrumentation and spinner concerns, `ImportSection.source_root`, the `require` lines, the `self.import` and `import` entry points (they only delegate to `_import`) and shell styling are left out as glue.
- ImportCommand.IndexLineRoundTrip: is proved only for class names without a space, a sufficient condition for the parse's split at the first `" } from './"` to land in the right place.
- ImportCommand.RegisterLineRoundTrip: is proved only for section names without a single quote, for the same reason.
- ImportCommand.CopyStage: takes the section name as part of a single base name. A name holding `/`, such as `sub/hero`, makes the command glob a subdirectory of the sections directory and then copy the match to the sections directory itself under its base name, so that copy is not mirrored and the export line names `./sub/hero`; the model finds no match for such a name and raises instead.
- ImportCommand.ImportReturnsIff: the "returns exactly when every glob finds one file" holds under the model's choices for missing aggregator files (a missing `index.js` is created, a missing `app.js` or `app.scss` stays missing). If Thor raises on a missing file, the command raises in those cases too, and that is not modelled.
- ImportCommand.PatchAggregators: "the only file added is `index.js`" rests on the same missing-file choices.
- ImportCommand.ImportSuccess: its statements about `index.js`, `app.js` and `app.scss` rest on the same missing-file choices. It states the script copy's final contents only when it is not `index.js`. A script whose base name is exactly `index.js` (section `index`) is overwritten by the copy and then extended by the export line, and that case is stated on its own.

=== FILE: common.dfy ===
/** Failure-carrying results shared by the other modules. */
module Common {

  /** A value that may be absent: a `nil` option, a marker that does not occur. */
  datatype Option<+T> = None | Some(value: T)

  /** Either a computed value or the error that stopped the computation. */
  datatype Result<+R, +E> = Success(value: R) | Failure(error: E)

  /** The only element of a one-element set. */
  function TheElement<T>(s: set<T>): (x: T)
    requires |s| == 1
    ensures s == {x}
  {
    var x :| x in s;
    SingletonIs(s, x);
    x
  }

  lemma SingletonIs<T>(s: set<T>, x: T)
    requires |s| == 1 && x in s
    ensures s == {x}
  {
    assert |s - {x}| == 0;
  }
}

=== FILE: files.dfy ===
/** An abstract file tree: the contents of every regular file, keyed by path. */
module Files {
  import opened Common
  import opened Paths
  import opened TextPatch

  type FileSystem = map<Path, string>

  /** Contents of a file, with a missing file read as empty. */
  function Contents(fs: FileSystem, p: Path): string {
    if p in fs then fs[p] else ""
  }

  /** `s` starts with at least one of `prefixes`. */
  predicate HasAnyPrefix(s: string, prefixes: seq<string>) {
    exists i :: 0 <= i < |prefixes| && prefixes[i] <= s
  }

  /**
   * The files `Dir.glob(File.join(dir, "<prefix>*"))` finds, for every prefix of
   * `prefixes`: regular files directly inside `dir` whose base name starts with one of them.
   */
  function Glob(fs: FileSystem, dir: Path, prefixes: seq<string>): (r: set<Path>)
    ensures r <= fs.Keys
    ensures forall p :: p in r ==> IsChildOf(p, dir) && HasAnyPrefix(BaseName(p), prefixes)
    ensures forall p :: p in fs && IsChildOf(p, dir) && HasAnyPrefix(BaseName(p), prefixes) ==> p in r
  {
    set p | p in fs && IsChildOf(p, dir) && HasAnyPrefix(BaseName(p), prefixes)
  }

  /** The exactly-one rule: a selection exists only when there is a single match. */
  function SelectOne(matches: set<Path>): (r: Option<Path>)
    ensures r.Some? <==> |matches| == 1
    ensures r.Some? ==> matches == {r.value}
  {
    if |matches| == 1 then Some(TheElement(matches)) else None
  }

  /** Of two different matches, neither is picked: there is no "first of several". */
  lemma NoPickAmongSeveral(matches: set<Path>, p: Path, q: Path)
    requires p in matches && q in matches && p != q
    ensures SelectOne(matches) == None
    ensures |matches| >= 2
  {
  }

  /** Thor's `copy_file`: the destination gets the source's bytes, overwriting. */
  function CopyFile(fs: FileSystem, src: Path, dest: Path): (r: FileSystem)
    requires src in fs
    ensures r.Keys == fs.Keys + {dest}
    ensures r[dest] == fs[src]
    ensures forall p :: p in fs && p != dest ==> r[p] == fs[p]
  {
    fs[dest := fs[src]]
  }

  /** A copy whose destination lies outside `dir` leaves the glob over `dir` as it was. */
  lemma CopyOutsideKeepsGlob(fs: FileSystem, src: Path, dest: Path, dir: Path, prefixes: seq<string>)
    requires src in fs
    requires !IsChildOf(dest, dir)
    ensures Glob(CopyFile(fs, src, dest), dir, prefixes) == Glob(fs, dir, prefixes)
    ensures forall p :: p in Glob(fs, dir, prefixes) ==> CopyFile(fs, src, dest)[p] == fs[p]
  {
  }

  /** Thor's `append_to_file`: the file gets `text` at its end (a missing file is created). */
  function AppendToFile(fs: FileSystem, p: Path, text: string): (r: FileSystem)
    ensures r.Keys == fs.Keys + {p}
    ensures Contents(fs, p) <= r[p] && r[p][|Contents(fs, p)|..] == text
    ensures forall q :: q in fs && q != p ==> r[q] == fs[q]
  {
    fs[p := Append(Contents(fs, p), text)]
  }

  /**
   * Thor's `insert_into_file` with `after: marker`: the file gets `text` right
   * after the first marker; a missing file stays missing.
   */
  function InsertIntoFile(fs: FileSystem, p: Path, marker: string, text: string): (r: FileSystem)
    ensures r.Keys == fs.Keys
    ensures p in fs ==> r[p] == InsertAfter(fs[p], marker, text)
    ensures forall q :: q in fs && q != p ==> r[q] == fs[q]
  {
    if p in fs then fs[p := InsertAfter(fs[p], marker, text)] else fs
  }
}

=== FILE: import_command.dfy ===
/**
 * `ImportCommand#_import`: copy a section's template, script and stylesheet from
 * a source site to a target site, then wire the section into the target's
 * script index, script registry and style registry.
 */
module ImportCommand {
  import opened Common
  import opened Paths
  import opened Files
  import opened TextPatch

  /** The three files a section is made of, in the order they are imported. */
  datatype ResourceKind = Template | Script | Stylesheet

  /** The command's `ImportException`, with its message. */
  datatype ImportException = ImportException(message: string)

  /**
   * How an import ends: it returns a value or raises, and either way leaves the
   * file tree as it then is (there is no rollback).
   */
  datatype Outcome =
    | Returned(fs: FileSystem, value: bool)
    | Raised(fs: FileSystem, error: ImportException)

  /** One completed copy stage: the matched source file, where it went, and the tree after. */
  datatype Copy = Copy(src: Path, dest: Path, fs: FileSystem)

  /** The sections directory of a kind under a project root. */
  function KindDir(kind: ResourceKind, root: Path): Path {
    match kind
    case Template => SectionsPath(root)
    case Script => SectionsJsPath(root)
    case Stylesheet => SectionsCssPath(root)
  }

  /**
   * The glob of each kind as base-name prefixes: `<name>.liquid*`, `<name>.js*`
   * and `<name>.{c,sa,sc}ss*`.
   */
  function Prefixes(kind: ResourceKind, name: string): (r: seq<string>)
    ensures |r| >= 1
    ensures forall i :: 0 <= i < |r| ==> name + "." <= r[i]
  {
    match kind
    case Template => [name + ".liquid"]
    case Script => [name + ".js"]
    case Stylesheet => [name + ".css", name + ".sass", name + ".scss"]
  }

  /** The exception each stage raises when its glob does not find exactly one file. */
  function NotFound(kind: ResourceKind): ImportException {
    match kind
    case Template => ImportException("Section template not found")
    case Script => ImportException("Section js not found")
    case Stylesheet => ImportException("Section css not found")
  }

  /** Each stage's message names its own kind, so the raised exception tells which stage failed. */
  lemma NotFoundTellsKind(k1: ResourceKind, k2: ResourceKind)
    ensures NotFound(k1) == NotFound(k2) ==> k1 == k2
  {
  }

  /** What the glob of a stage finds under the source root. */
  function Candidates(fs: FileSystem, kind: ResourceKind, name: string, source: Path): set<Path> {
    Glob(fs, KindDir(kind, source), Prefixes(kind, name))
  }

  /** Where a matched file is copied: the same sections directory under the target root, same base name. */
  function Destination(kind: ResourceKind, target: Path, src: Path): (r: Path)
    requires |src| > 0
    ensures IsChildOf(r, KindDir(kind, target))
    ensures BaseName(r) == BaseName(src)
  {
    KindDir(kind, target) + [BaseName(src)]
  }

  /**
   * One stage of `_import`: glob, demand exactly one match, copy it. The copy
   * mirrors the file's path relative to the source root onto the target root.
   */
  function CopyStage(fs: FileSystem, kind: ResourceKind, name: string, source: Path, target: Path)
    : (r: Result<Copy, ImportException>)
    ensures r.Success? <==> |Candidates(fs, kind, name, source)| == 1
    ensures r.Failure? ==> r.error == NotFound(kind)
    ensures r.Success? ==>
      && Candidates(fs, kind, name, source) == {r.value.src}
      && r.value.src in fs
      && |r.value.src| > 0 && r.value.dest == Destination(kind, target, r.value.src)
      && r.value.src[..|source|] == source
      && r.value.dest[..|target|] == target
      && r.value.dest[|target|..] == r.value.src[|source|..]
      && r.value.fs == CopyFile(fs, r.value.src, r.value.dest)
  {
    match SelectOne(Candidates(fs, kind, name, source))
    case None => Failure(NotFound(kind))
    case Some(src) =>
      var dir := KindDir(kind, source);
      assert src[..|dir|] == dir;
      assert src[..|source|] == dir[..|source|];
      assert src == dir + [BaseName(src)];
      var dest := Destination(kind, target, src);
      assert dest[|target|..] == KindDir(kind, target)[|target|..] + [BaseName(src)];
      assert src[|source|..] == dir[|source|..] + [BaseName(src)];
      Success(Copy(src, dest, CopyFile(fs, src, dest)))
  }

  /** The marker line both registries carry. */
  const Marker: string := "// Register sections here. DO NOT REMOVE OR UPDATE THIS LINE\n"

  /** `s` is one complete line: it ends in its only newline. */
  predicate IsOneLine(s: string) {
    |s| > 0 && s[|s| - 1] == '\n' && '\n' !in s[..|s| - 1]
  }

  /** The line appended to the script index. */
  function IndexLine(name: string, className: string): (r: string)
    ensures '\n' !in name && '\n' !in className ==> IsOneLine(r)
  {
    "export { default as " + className + " } from './" + name + "';\n"
  }

  /** The line inserted into the script registry. */
  function RegisterLine(name: string, className: string): (r: string)
    ensures '\n' !in name && '\n' !in className ==> IsOneLine(r)
  {
    "  sectionsManager.registerSection('" + name + "', Sections." + className + ");\n"
  }

  /** The line inserted into the style registry. */
  function ImportLine(name: string): (r: string)
    ensures '\n' !in name ==> IsOneLine(r)
  {
    "@import 'sections/" + name + "';\n"
  }

  /**
   * The three text patches, in order: append to `index.js`, insert into `app.js`,
   * insert into `app.scss`. Each touches its own file and nothing else.
   */
  function PatchAggregators(fs: FileSystem, name: string, className: string, target: Path): (r: FileSystem)
    ensures r.Keys == fs.Keys + {IndexPath(target)}
    ensures r[IndexPath(target)] == Contents(fs, IndexPath(target)) + IndexLine(name, className)
    ensures AppJsPath(target) in fs ==>
      r[AppJsPath(target)] == InsertAfter(fs[AppJsPath(target)], Marker, RegisterLine(name, className))
    ensures AppScssPath(target) in fs ==>
      r[AppScssPath(target)] == InsertAfter(fs[AppScssPath(target)], Marker, ImportLine(name))
    ensures forall p :: p in fs && p != IndexPath(target) && p != AppJsPath(target) && p != AppScssPath(target) ==>
      r[p] == fs[p]
  {
    AggregatorsDistinct(target);
    var fs1 := AppendToFile(fs, IndexPath(target), IndexLine(name, className));
    var fs2 := InsertIntoFile(fs1, AppJsPath(target), Marker, RegisterLine(name, className));
    InsertIntoFile(fs2, AppScssPath(target), Marker, ImportLine(name))
  }

  /** `print_result_message`: reports success and answers `true`. */
  function PrintResultMessage(): bool {
    true
  }

  /**
   * `_import`: the template, script and stylesheet stages in that order, each
   * raising at once when its glob fails; then the three patches, then `true`.
   * `classify` stands for ActiveSupport's `String#classify`.
   */
  function Import(fs: FileSystem, name: string, source: Path, target: Path, classify: string -> string): (r: Outcome)
    ensures r.Returned? ==> r.value
    ensures r.Raised? ==> r.error in {NotFound(Template), NotFound(Script), NotFound(Stylesheet)}
  {
    match CopyStage(fs, Template, name, source, target)
    case Failure(e) => Raised(fs, e)
    case Success(t) =>
      match CopyStage(t.fs, Script, name, source, target)
      case Failure(e) => Raised(t.fs, e)
      case Success(j) =>
        match CopyStage(j.fs, Stylesheet, name, source, target)
        case Failure(e) => Raised(j.fs, e)
        case Success(c) =>
          Returned(PatchAggregators(c.fs, name, classify(name), target), PrintResultMessage())
  }

  // ---------------------------------------------------------------------------
  // Layout facts

  /** The three aggregator files are different files. */
  lemma AggregatorsDistinct(target: Path)
    ensures IndexPath(target) != AppJsPath(target)
    ensures IndexPath(target) != AppScssPath(target)
    ensures AppJsPath(target) != AppScssPath(target)
  {
    assert |IndexPath(target)| == |target| + 5;
    assert |AppJsPath(target)| == |target| + 4 == |AppScssPath(target)|;
    assert AppJsPath(target)[|target| + 2] == "javascripts";
    assert AppScssPath(target)[|target| + 2] == "stylesheets";
  }

  /** `k` comes before `k2` in the import order. */
  predicate Precedes(k: ResourceKind, k2: ResourceKind) {
    (k == Template && k2 != Template) || (k == Script && k2 == Stylesheet)
  }

  /**
   * A file copied by an earlier stage never lands where a later stage globs,
   * whatever the two roots are.
   */
  lemma {:induction false} CopyMissesLaterSources(k: ResourceKind, k2: ResourceKind, source: Path, target: Path, p: Path)
    requires Precedes(k, k2)
    requires IsChildOf(p, KindDir(k, target))
    ensures !IsChildOf(p, KindDir(k2, source))
  {
    var t, s := |target|, |source|;
    var later := KindDir(k2, source);
    if k == Template {
      ChildComponent(p, KindDir(k, target), t + 1);
      assert p[t + 1] == "views";
      assert |later| == s + 4;
      assert later[s + 2] != "views";
      assert IsChildOf(p, later) ==> t + 1 == s + 2;
    } else {
      ChildComponent(p, KindDir(k, target), t + 2);
      assert p[t + 2] == "javascripts";
      assert later[s + 2] == "stylesheets";
      assert IsChildOf(p, later) ==> t == s;
    }
  }

  /** A stage's copy leaves what every later stage will find, and its contents, as they were. */
  lemma LaterCandidatesUnchanged(fs: FileSystem, k: ResourceKind, k2: ResourceKind, name: string, source: Path, target: Path)
    requires Precedes(k, k2)
    requires CopyStage(fs, k, name, source, target).Success?
    ensures var c := CopyStage(fs, k, name, source, target).value;
      && Candidates(c.fs, k2, name, source) == Candidates(fs, k2, name, source)
      && forall p :: p in Candidates(fs, k2, name, source) ==> c.fs[p] == fs[p]
  {
    var c := CopyStage(fs, k, name, source, target).value;
    CopyMissesLaterSources(k, k2, source, target, c.dest);
    CopyOutsideKeepsGlob(fs, c.src, c.dest, KindDir(k2, source), Prefixes(k2, name));
  }

  // ---------------------------------------------------------------------------
  // Properties of the import

  /**
   * The import returns exactly when each of the three globs, run on the tree
   * as it was before the import, finds exactly one file; and it returns `true`.
   */
  lemma ImportReturnsIff(fs: FileSystem, name: string, source: Path, target: Path, classify: string -> string)
    ensures Import(fs, name, source, target, classify).Returned? <==>
      && |Candidates(fs, Template, name, source)| == 1
      && |Candidates(fs, Script, name, source)| == 1
      && |Candidates(fs, Stylesheet, name, source)| == 1
    ensures Import(fs, name, source, target, classify).Returned? ==>
      Import(fs, name, source, target, classify).value
  {
    var t := CopyStage(fs, Template, name, source, target);
    if t.Success? {
      LaterCandidatesUnchanged(fs, Template, Script, name, source, target);
      LaterCandidatesUnchanged(fs, Template, Stylesheet, name, source, target);
      var j := CopyStage(t.value.fs, Script, name, source, target);
      if j.Success? {
        LaterCandidatesUnchanged(t.value.fs, Script, Stylesheet, name, source, target);
      }
    }
  }

  /**
   * Fail-fast, first stage: a template glob that does not find exactly one file
   * raises at once and leaves the tree untouched.
   */
  lemma TemplateFailureStops(fs: FileSystem, name: string, source: Path, target: Path, classify: string -> string)
    requires |Candidates(fs, Template, name, source)| != 1
    ensures Import(fs, name, source, target, classify) == Raised(fs, NotFound(Template))
  {
  }

  /**
   * Fail-fast, second stage: the template copy stays in place, and neither the
   * stylesheet copy nor any patch happens.
   */
  lemma ScriptFailureStops(fs: FileSystem, name: string, source: Path, target: Path, classify: string -> string)
    requires |Candidates(fs, Template, name, source)| == 1
    requires |Candidates(fs, Script, name, source)| != 1
    ensures CopyStage(fs, Template, name, source, target).Success?
    ensures Import(fs, name, source, target, classify)
         == Raised(CopyStage(fs, Template, name, source, target).value.fs, NotFound(Script))
  {
    LaterCandidatesUnchanged(fs, Template, Script, name, source, target);
  }

  /**
   * Fail-fast, third stage: the template and script copies stay in place, and
   * no patch happens.
   */
  lemma StylesheetFailureStops(fs: FileSystem, name: string, source: Path, target: Path, classify: string -> string)
    requires |Candidates(fs, Template, name, source)| == 1
    requires |Candidates(fs, Script, name, source)| == 1
    requires |Candidates(fs, Stylesheet, name, source)| != 1
    ensures CopyStage(fs, Template, name, source, target).Success?
    ensures CopyStage(CopyStage(fs, Template, name, source, target).value.fs, Script, name, source, target).Success?
    ensures Import(fs, name, source, target, classify)
         == Raised(CopyStage(CopyStage(fs, Template, name, source, target).value.fs, Script, name, source, target).value.fs,
                   NotFound(Stylesheet))
  {
    var t := CopyStage(fs, Template, name, source, target).value;
    LaterCandidatesUnchanged(fs, Template, Script, name, source, target);
    LaterCandidatesUnchanged(fs, Template, Stylesheet, name, source, target);
    LaterCandidatesUnchanged(t.fs, Script, Stylesheet, name, source, target);
  }

  /** The one file a stage's glob finds. */
  function Matched(fs: FileSystem, kind: ResourceKind, name: string, source: Path): (p: Path)
    requires |Candidates(fs, kind, name, source)| == 1
    ensures p in fs && IsChildOf(p, KindDir(kind, source))
  {
    var p := TheElement(Candidates(fs, kind, name, source));
    assert p in Candidates(fs, kind, name, source);
    p
  }

  /** The tree after the three copies, each matched file written to its destination. */
  function CopiedTree(fs: FileSystem, name: string, source: Path, target: Path): FileSystem
    requires |Candidates(fs, Template, name, source)| == 1
    requires |Candidates(fs, Script, name, source)| == 1
    requires |Candidates(fs, Stylesheet, name, source)| == 1
  {
    var st, sj, sc := Matched(fs, Template, name, source), Matched(fs, Script, name, source), Matched(fs, Stylesheet, name, source);
    fs[Destination(Template, target, st) := fs[st]]
      [Destination(Script, target, sj) := fs[sj]]
      [Destination(Stylesheet, target, sc) := fs[sc]]
  }

  /**
   * When every glob finds one file, the import copies each of them from the
   * tree as it was, then patches and returns `true`.
   */
  lemma ImportCopiesThenPatches(fs: FileSystem, name: string, source: Path, target: Path, classify: string -> string)
    requires |Candidates(fs, Template, name, source)| == 1
    requires |Candidates(fs, Script, name, source)| == 1
    requires |Candidates(fs, Stylesheet, name, source)| == 1
    ensures Import(fs, name, source, target, classify)
         == Returned(PatchAggregators(CopiedTree(fs, name, source, target), name, classify(name), target), true)
  {
    var t := CopyStage(fs, Template, name, source, target).value;
    LaterCandidatesUnchanged(fs, Template, Script, name, source, target);
    LaterCandidatesUnchanged(fs, Template, Stylesheet, name, source, target);
    var j := CopyStage(t.fs, Script, name, source, target).value;
    LaterCandidatesUnchanged(t.fs, Script, Stylesheet, name, source, target);
    var c := CopyStage(j.fs, Stylesheet, name, source, target).value;
    assert t.src == Matched(fs, Template, name, source);
    assert j.src == Matched(fs, Script, name, source);
    assert c.src == Matched(fs, Stylesheet, name, source);
    assert j.fs[j.src] == fs[j.src];
    assert c.fs == CopiedTree(fs, name, source, target);
  }

  /**
   * A successful import: each matched file's bytes sit at its mirrored place
   * under the target root (unless that place is the script index, which the
   * first patch then extends), the three aggregator files hold the patched
   * text, and every other file is as it was.
   */
  lemma ImportSuccess(fs: FileSystem, name: string, source: Path, target: Path, classify: string -> string)
    requires Import(fs, name, source, target, classify).Returned?
    ensures
      && |Candidates(fs, Template, name, source)| == 1
      && |Candidates(fs, Script, name, source)| == 1
      && |Candidates(fs, Stylesheet, name, source)| == 1
    ensures
      var r := Import(fs, name, source, target, classify).fs;
      var st, sj, sc := Matched(fs, Template, name, source), Matched(fs, Script, name, source), Matched(fs, Stylesheet, name, source);
      var dt, dj, dc := Destination(Template, target, st), Destination(Script, target, sj), Destination(Stylesheet, target, sc);
      var cls := classify(name);
      && r.Keys == fs.Keys + {dt, dj, dc, IndexPath(target)}
      && r[dt] == fs[st]
      && (dj != IndexPath(target) ==> r[dj] == fs[sj])
      && r[dc] == fs[sc]
      && (dj != IndexPath(target) ==> r[IndexPath(target)] == Contents(fs, IndexPath(target)) + IndexLine(name, cls))
      && (dj == IndexPath(target) ==> r[IndexPath(target)] == fs[sj] + IndexLine(name, cls))
      && (AppJsPath(target) in fs ==>
            r[AppJsPath(target)] == InsertAfter(fs[AppJsPath(target)], Marker, RegisterLine(name, cls)))
      && (AppScssPath(target) in fs ==>
            r[AppScssPath(target)] == InsertAfter(fs[AppScssPath(target)], Marker, ImportLine(name)))
      && forall p :: p in fs && p !in {dt, dj, dc, IndexPath(target), AppJsPath(target), AppScssPath(target)} ==>
            r[p] == fs[p]
  {
    ImportReturnsIff(fs, name, source, target, classify);
    ImportCopiesThenPatches(fs, name, source, target, classify);
    var st, sj, sc := Matched(fs, Template, name, source), Matched(fs, Script, name, source), Matched(fs, Stylesheet, name, source);
    var dt, dj, dc := Destination(Template, target, st), Destination(Script, target, sj), Destination(Stylesheet, target, sc);
    PatchedCopies(fs, st, sj, sc, dt, dj, dc, name, classify(name), target);
  }

  /** The success picture over arbitrary copies into the three target sections directories. */
  lemma PatchedCopies(fs: FileSystem, st: Path, sj: Path, sc: Path, dt: Path, dj: Path, dc: Path,
                      name: string, cls: string, target: Path)
    requires st in fs && sj in fs && sc in fs
    requires IsChildOf(dt, KindDir(Template, target))
    requires IsChildOf(dj, KindDir(Script, target))
    requires IsChildOf(dc, KindDir(Stylesheet, target))
    ensures
      var copied := fs[dt := fs[st]][dj := fs[sj]][dc := fs[sc]];
      var r := PatchAggregators(copied, name, cls, target);
      && r.Keys == fs.Keys + {dt, dj, dc, IndexPath(target)}
      && r[dt] == fs[st]
      && (dj != IndexPath(target) ==> r[dj] == fs[sj])
      && r[dc] == fs[sc]
      && (dj != IndexPath(target) ==> r[IndexPath(target)] == Contents(fs, IndexPath(target)) + IndexLine(name, cls))
      && (dj == IndexPath(target) ==> r[IndexPath(target)] == fs[sj] + IndexLine(name, cls))
      && (AppJsPath(target) in fs ==>
            r[AppJsPath(target)] == InsertAfter(fs[AppJsPath(target)], Marker, RegisterLine(name, cls)))
      && (AppScssPath(target) in fs ==>
            r[AppScssPath(target)] == InsertAfter(fs[AppScssPath(target)], Marker, ImportLine(name)))
      && forall p :: p in fs && p !in {dt, dj, dc, IndexPath(target), AppJsPath(target), AppScssPath(target)} ==>
            r[p] == fs[p]
  {
    ImportPatchesMissCopies(target, dt, dj, dc);
    AggregatorsDistinct(target);
  }

  /** The template and stylesheet copies are never aggregator files; the registries are never copies. */
  lemma ImportPatchesMissCopies(target: Path, dt: Path, dj: Path, dc: Path)
    requires IsChildOf(dt, KindDir(Template, target))
    requires IsChildOf(dj, KindDir(Script, target))
    requires IsChildOf(dc, KindDir(Stylesheet, target))
    ensures dt != IndexPath(target) && dt != AppJsPath(target) && dt != AppScssPath(target)
    ensures dj != AppJsPath(target) && dj != AppScssPath(target)
    ensures dc != IndexPath(target) && dc != AppJsPath(target) && dc != AppScssPath(target)
    ensures dt != dj && dt != dc && dj != dc
  {
    var t := |target|;
    ChildComponent(dj, KindDir(Script, target), t + 2);
    ChildComponent(dt, KindDir(Template, target), t + 1);
    ChildComponent(dc, KindDir(Stylesheet, target), t + 2);
    assert AppJsPath(target)[t + 1] == "assets" && AppScssPath(target)[t + 1] == "assets";
    assert AppScssPath(target)[t + 3] == "app.scss";
    assert IndexPath(target)[t + 2] == "javascripts";
    assert |dj| == t + 5 && |AppJsPath(target)| == t + 4;
  }

  /**
   * In a script registry whose first marker follows `pre`, the import puts the
   * registration line right after the marker and keeps the rest.
   */
  lemma RegisterLineFollowsMarker(fs: FileSystem, name: string, source: Path, target: Path, classify: string -> string,
                                  pre: string, post: string)
    requires Import(fs, name, source, target, classify).Returned?
    requires AppJsPath(target) in fs && fs[AppJsPath(target)] == pre + Marker + post
    requires forall j: nat :: j < |pre| ==> !OccursAt(pre + Marker + post, Marker, j)
    ensures Import(fs, name, source, target, classify).fs[AppJsPath(target)]
         == pre + Marker + RegisterLine(name, classify(name)) + post
  {
    ImportSuccess(fs, name, source, target, classify);
    InsertAfterAnchor(pre, Marker, post, RegisterLine(name, classify(name)));
  }

  /**
   * In a style registry whose first marker follows `pre`, the import puts the
   * `@import` line right after the marker and keeps the rest.
   */
  lemma ImportLineFollowsMarker(fs: FileSystem, name: string, source: Path, target: Path, classify: string -> string,
                                pre: string, post: string)
    requires Import(fs, name, source, target, classify).Returned?
    requires AppScssPath(target) in fs && fs[AppScssPath(target)] == pre + Marker + post
    requires forall j: nat :: j < |pre| ==> !OccursAt(pre + Marker + post, Marker, j)
    ensures Import(fs, name, source, target, classify).fs[AppScssPath(target)]
         == pre + Marker + ImportLine(name) + post
  {
    ImportSuccess(fs, name, source, target, classify);
    InsertAfterAnchor(pre, Marker, post, ImportLine(name));
  }

  /**
   * No base name starts with two of the stylesheet prefixes, so the brace glob
   * `{c,sa,sc}ss*` lists each file once and its count is the size of the set.
   */
  lemma StylesheetPrefixesExclusive(name: string, base: string, i: nat, j: nat)
    requires i < j < 3
    requires Prefixes(Stylesheet, name)[i] <= base
    ensures !(Prefixes(Stylesheet, name)[j] <= base)
  {
    var n := |name|;
    assert Prefixes(Stylesheet, name)[i][n + 1] == base[n + 1];
    assert Prefixes(Stylesheet, name)[i][n + 2] == base[n + 2];
    var pj := Prefixes(Stylesheet, name)[j];
    assert pj[n + 1] == (if j == 0 then 'c' else 's');
    assert pj[n + 2] == (if j == 2 then 'c' else if j == 1 then 'a' else 's');
  }

  // ---------------------------------------------------------------------------
  // The generated lines, read back

  /** The class and section name an index line exports, if it is one. */
  function ParseIndexLine(line: string): (r: Option<(string, string)>)
    ensures r.Some? ==> line == IndexLine(r.value.1, r.value.0)
  {
    match Between(line, "export { default as ", "';\n")
    case None => None
    case Some(mid) =>
      BetweenRoundTrip(line, "export { default as ", mid, "';\n");
      match SplitAtFirst(mid, " } from './")
      case None => None
      case Some(parts) => Some(parts)
  }

  /** An index line gives back its class and section name (class names hold no space). */
  lemma IndexLineRoundTrip(name: string, className: string)
    requires ' ' !in className
    ensures ParseIndexLine(IndexLine(name, className)) == Some((className, name))
  {
    var mid := className + " } from './" + name;
    assert IndexLine(name, className) == "export { default as " + mid + "';\n";
    BetweenRoundTrip(IndexLine(name, className), "export { default as ", mid, "';\n");
    SplitAtFirstRoundTrip(className, " } from './", name);
  }

  /** The section name and class a registration line registers, if it is one. */
  function ParseRegisterLine(line: string): (r: Option<(string, string)>)
    ensures r.Some? ==> line == RegisterLine(r.value.0, r.value.1)
  {
    match Between(line, "  sectionsManager.registerSection('", ");\n")
    case None => None
    case Some(mid) =>
      BetweenRoundTrip(line, "  sectionsManager.registerSection('", mid, ");\n");
      match SplitAtFirst(mid, "', Sections.")
      case None => None
      case Some(parts) => Some(parts)
  }

  /** A registration line gives back its section name and class (section names hold no quote). */
  lemma RegisterLineRoundTrip(name: string, className: string)
    requires '\'' !in name
    ensures ParseRegisterLine(RegisterLine(name, className)) == Some((name, className))
  {
    var mid := name + "', Sections." + className;
    assert RegisterLine(name, className) == "  sectionsManager.registerSection('" + mid + ");\n";
    BetweenRoundTrip(RegisterLine(name, className), "  sectionsManager.registerSection('", mid, ");\n");
    SplitAtFirstRoundTrip(name, "', Sections.", className);
  }

  /** The section a stylesheet import line pulls in, if it is one. */
  function ParseImportLine(line: string): (r: Option<string>)
    ensures r.Some? ==> line == ImportLine(r.value)
  {
    match Between(line, "@import 'sections/", "';\n")
    case None => None
    case Some(mid) =>
      BetweenRoundTrip(line, "@import 'sections/", mid, "';\n");
      Some(mid)
  }

  /** An import line gives back its section name, whatever it is. */
  lemma ImportLineRoundTrip(name: string)
    ensures ParseImportLine(ImportLine(name)) == Some(name)
  {
    BetweenRoundTrip(ImportLine(name), "@import 'sections/", name, "';\n");
  }

  /** The lines for a section `hero` whose class name is `Hero`. */
  lemma HeroLines()
    ensures IndexLine("hero", "Hero") == "export { default as Hero } from './hero';\n"
    ensures RegisterLine("hero", "Hero") == "  sectionsManager.registerSection('hero', Sections.Hero);\n"
    ensures ImportLine("hero") == "@import 'sections/hero';\n"
  {
  }
}

=== FILE: paths.dfy ===
/** Paths as sequences of components, and the directory layout of a site project. */
module Paths {

  /** `File.join(root, "a", "b")` is `root + ["a", "b"]`. */
  type Path = seq<string>

  /** `p` is an entry directly inside `dir` (what a non-recursive glob enumerates). */
  predicate IsChildOf(p: Path, dir: Path) {
    |p| == |dir| + 1 && p[..|dir|] == dir
  }

  /** `File.basename`: the last component. */
  function BaseName(p: Path): string
    requires |p| > 0
  {
    p[|p| - 1]
  }

  /** Directory of section templates under a project root. */
  function SectionsPath(root: Path): Path {
    root + ["app", "views", "sections"]
  }

  /** Directory of section scripts under a project root. */
  function SectionsJsPath(root: Path): Path {
    root + ["app", "assets", "javascripts", "sections"]
  }

  /** Directory of section stylesheets under a project root. */
  function SectionsCssPath(root: Path): Path {
    root + ["app", "assets", "stylesheets", "sections"]
  }

  /** The script index that re-exports every section class. */
  function IndexPath(root: Path): Path {
    SectionsJsPath(root) + ["index.js"]
  }

  /** The script registry holding the `registerSection` calls. */
  function AppJsPath(root: Path): Path {
    root + ["app", "assets", "javascripts", "app.js"]
  }

  /** The style registry holding the `@import` lines. */
  function AppScssPath(root: Path): Path {
    root + ["app", "assets", "stylesheets", "app.scss"]
  }

  /** A component of a child path agrees with its directory. */
  lemma ChildComponent(p: Path, dir: Path, i: nat)
    requires IsChildOf(p, dir)
    requires i < |dir|
    ensures p[i] == dir[i]
  {
  }
}

=== FILE: resources.dfy ===
/** The resource kinds a wagon site is made of, and the `:resources` option that narrows them. */
module Resources {
  import opened Common

  /** `RESOURCES`, in their declared order. */
  const All: seq<string> := ["site", "pages", "content_types", "content_entries", "snippets",
                             "sections", "theme_assets", "translations", "content_assets"]

  /** Rails' `blank?` on the option: absent (`nil`) or an empty list. */
  predicate Blank(selected: Option<seq<string>>) {
    selected.None? || |selected.value| == 0
  }

  /** `x` passes the filter of `each_resource`. */
  predicate Wanted(x: string, selected: Option<seq<string>>) {
    Blank(selected) || x in selected.value
  }

  /** `a` is `b` with some elements left out, the rest in their order. */
  predicate IsSubsequence<T(==)>(a: seq<T>, b: seq<T>)
    decreases |b|
  {
    || a == []
    || (&& b != []
        && ((a[0] == b[0] && IsSubsequence(a[1..], b[1..])) || IsSubsequence(a, b[1..])))
  }

  /** The elements of `s` that pass the filter, in the order of `s`. */
  function Keep(s: seq<string>, selected: Option<seq<string>>): (r: seq<string>)
    ensures forall x :: x in r <==> x in s && Wanted(x, selected)
    ensures IsSubsequence(r, s)
    decreases |s|
  {
    if s == [] then []
    else if Wanted(s[0], selected) then [s[0]] + Keep(s[1..], selected)
    else Keep(s[1..], selected)
  }

  /**
   * The names `each_resource` yields: all of `RESOURCES` when the option is
   * blank, otherwise those listed in it, always in declared order.
   */
  function EachResource(selected: Option<seq<string>>): (r: seq<string>)
    ensures Blank(selected) ==> r == All
    ensures forall x :: x in r <==> x in All && Wanted(x, selected)
    ensures IsSubsequence(r, All)
  {
    KeepAll(All, selected);
    Keep(All, selected)
  }

  /** A blank option filters nothing out. */
  lemma {:induction false} KeepAll(s: seq<string>, selected: Option<seq<string>>)
    ensures Blank(selected) ==> Keep(s, selected) == s
    decreases |s|
  {
    if s != [] && Blank(selected) {
      KeepAll(s[1..], selected);
      assert [s[0]] + s[1..] == s;
    }
  }

  /** Elements of `s` with no repetition. */
  predicate Distinct<T(==)>(s: seq<T>) {
    forall i, j :: 0 <= i < j < |s| ==> s[i] != s[j]
  }

  /**
   * With distinct elements, membership and order pin the result down: any
   * order-preserving selection of the same names is the one `Keep` returns.
   */
  lemma {:induction false} KeepIsTheOnlyOrderedSelection(s: seq<string>, selected: Option<seq<string>>, r: seq<string>)
    requires Distinct(s)
    requires IsSubsequence(r, s)
    requires forall x :: x in r <==> x in s && Wanted(x, selected)
    ensures r == Keep(s, selected)
    decreases |s|
  {
    if s != [] {
      var rest := s[1..];
      assert Distinct(rest) by {
        forall i, j | 0 <= i < j < |rest| ensures rest[i] != rest[j] {
          assert rest[i] == s[i + 1] && rest[j] == s[j + 1];
        }
      }
      assert s[0] !in rest by {
        forall i | 0 <= i < |rest| ensures rest[i] != s[0] {
          assert rest[i] == s[i + 1];
        }
      }
      if r != [] && r[0] == s[0] && IsSubsequence(r[1..], rest) {
        var r' := r[1..];
        assert s[0] !in r' by {
          SubsequenceMembers(r', rest);
        }
        forall x ensures x in r' <==> x in rest && Wanted(x, selected) {
          assert x in r <==> x == r[0] || x in r';
          assert x in s <==> x == s[0] || x in rest;
        }
        KeepIsTheOnlyOrderedSelection(rest, selected, r');
        assert r == [r[0]] + r';
      } else {
        assert IsSubsequence(r, rest);
        SubsequenceMembers(r, rest);
        assert s[0] !in r;
        forall x ensures x in r <==> x in rest && Wanted(x, selected) {
          assert x in s <==> x == s[0] || x in rest;
        }
        KeepIsTheOnlyOrderedSelection(rest, selected, r);
        assert !Wanted(s[0], selected) by {
          assert s[0] in s;
        }
      }
    }
  }

  /** Everything in a subsequence is in the sequence it came from. */
  lemma {:induction false} SubsequenceMembers<T>(a: seq<T>, b: seq<T>)
    requires IsSubsequence(a, b)
    ensures forall x :: x in a ==> x in b
    decreases |b|
  {
    if a != [] {
      if a[0] == b[0] && IsSubsequence(a[1..], b[1..]) {
        SubsequenceMembers(a[1..], b[1..]);
        forall x | x in a ensures x in b {
          assert x == a[0] || x in a[1..];
          assert x == b[0] || x in b[1..] ==> x in b;
        }
      } else {
        SubsequenceMembers(a, b[1..]);
        forall x | x in a ensures x in b {
          assert x in b[1..] ==> x in b;
        }
      }
    }
  }

  /** `RESOURCES` holds no name twice, so `each_resource` yields each at most once. */
  lemma EachResourceIsDetermined(selected: Option<seq<string>>, r: seq<string>)
    requires IsSubsequence(r, All)
    requires forall x :: x in r <==> x in All && Wanted(x, selected)
    ensures r == EachResource(selected)
  {
    assert Distinct(All);
    KeepIsTheOnlyOrderedSelection(All, selected, r);
  }
}

=== FILE: text_patch.dfy ===
/**
 * The two text edits the import applies to aggregator files: appending to the
 * end, and inserting right after a marker.
 */
module TextPatch {
  import opened Common

  /** `m` occurs in `s` starting at index `i`. */
  predicate OccursAt(s: string, m: string, i: nat) {
    i + |m| <= |s| && s[i..i + |m|] == m
  }

  /** `i` is where `m` first occurs in `s`. */
  predicate FirstOccurrence(s: string, m: string, i: nat) {
    OccursAt(s, m, i) && forall j: nat :: j < i ==> !OccursAt(s, m, j)
  }

  /** The first index at or after `from` where `m` occurs in `s`. */
  function FindFrom(s: string, m: string, from: nat): (r: Option<nat>)
    ensures r.Some? ==> from <= r.value && OccursAt(s, m, r.value)
    ensures r.Some? ==> forall j: nat :: from <= j < r.value ==> !OccursAt(s, m, j)
    ensures r.None? ==> forall j: nat :: from <= j ==> !OccursAt(s, m, j)
    decreases |s| - from
  {
    if from + |m| > |s| then None
    else if s[from..from + |m|] == m then Some(from)
    else FindFrom(s, m, from + 1)
  }

  /** The first occurrence of `m` in `s`, if any. */
  function Find(s: string, m: string): (r: Option<nat>)
    ensures r.Some? ==> FirstOccurrence(s, m, r.value)
    ensures r.None? <==> forall j: nat :: !OccursAt(s, m, j)
  {
    FindFrom(s, m, 0)
  }

  /** `append_to_file`: `text` goes at the very end. */
  function Append(s: string, text: string): (r: string)
    ensures s <= r
    ensures r[|s|..] == text
  {
    s + text
  }

  /**
   * `insert_into_file` with `after: marker`: `text` goes right after the first
   * occurrence of `marker`; without one the content is left as it was.
   */
  function InsertAfter(s: string, marker: string, text: string): (r: string)
    ensures (forall j: nat :: !OccursAt(s, marker, j)) ==> r == s
    ensures forall i: nat :: FirstOccurrence(s, marker, i) ==>
      var k := i + |marker|;
      && |r| == |s| + |text|
      && r[..k] == s[..k]
      && r[k..k + |text|] == text
      && r[k + |text|..] == s[k..]
  {
    match Find(s, marker)
    case None => s
    case Some(i) =>
      FirstIsUnique(s, marker, i);
      s[..i + |marker|] + text + s[i + |marker|..]
  }

  /** There is only one first occurrence. */
  lemma FirstIsUnique(s: string, m: string, i: nat)
    requires FirstOccurrence(s, m, i)
    ensures forall j: nat :: FirstOccurrence(s, m, j) ==> j == i
  {
  }

  /**
   * Insert-after-anchor on a text `pre + marker + post` whose first marker is the
   * one after `pre`: the text lands between the marker and `post`, and nothing
   * else changes.
   */
  lemma {:induction false} InsertAfterAnchor(pre: string, marker: string, post: string, text: string)
    requires forall j: nat :: j < |pre| ==> !OccursAt(pre + marker + post, marker, j)
    ensures InsertAfter(pre + marker + post, marker, text) == pre + marker + text + post
  {
    var s := pre + marker + post;
    assert s[|pre|..|pre| + |marker|] == marker;
    assert FirstOccurrence(s, marker, |pre|);
    var k := |pre| + |marker|;
    var r := InsertAfter(s, marker, text);
    assert s[..k] == pre + marker;
    assert s[k..] == post;
    assert r == r[..k] + r[k..k + |text|] + r[k + |text|..];
  }

  /** If `line == pre + mid + post`, the middle part; otherwise nothing. */
  function Between(line: string, pre: string, post: string): (r: Option<string>)
    ensures r.Some? <==> |pre| + |post| <= |line| && pre <= line && line[|line| - |post|..] == post
  {
    if |pre| + |post| <= |line| && pre <= line && line[|line| - |post|..] == post
    then Some(line[|pre|..|line| - |post|])
    else None
  }

  /** `Between` takes a line apart exactly as it was put together. */
  lemma {:induction false} BetweenRoundTrip(line: string, pre: string, mid: string, post: string)
    ensures Between(pre + mid + post, pre, post) == Some(mid)
    ensures Between(line, pre, post) == Some(mid) ==> line == pre + mid + post
  {
  }

  /**
   * Splitting at the first `sep` undoes `a + sep + b` when `a` cannot hold the
   * start of a separator.
   */
  function SplitAtFirst(s: string, sep: string): (r: Option<(string, string)>)
    ensures r.None? <==> forall j: nat :: !OccursAt(s, sep, j)
    ensures r.Some? ==> s == r.value.0 + sep + r.value.1
  {
    match Find(s, sep)
    case None => None
    case Some(i) =>
      assert s == s[..i] + s[i..i + |sep|] + s[i + |sep|..];
      Some((s[..i], s[i + |sep|..]))
  }

  lemma {:induction false} SplitAtFirstRoundTrip(a: string, sep: string, b: string)
    requires |sep| > 0 && sep[0] !in a
    ensures SplitAtFirst(a + sep + b, sep) == Some((a, b))
  {
    var s := a + sep + b;
    assert s[|a|..|a| + |sep|] == sep;
    forall j: nat | j < |a|
      ensures !OccursAt(s, sep, j)
    {
      assert s[j] == a[j] != sep[0];
    }
    assert FirstOccurrence(s, sep, |a|);
    assert s[..|a|] == a;
    assert s[|a| + |sep|..] == b;
  }
}
